=== FILE: README.md ===
# Minimal API for administrators and vehicles — Dafny model

This project models the decision logic of a small ASP.NET minimal API.
The API manages administrators (`Administrador`) and vehicles (`Veiculo`).
The model covers:

- the two DTO validators, `ValidaAdministradorDTO` and `ValidaVeiculoDTO`;
- the route handlers in `Startup.Configure`: login, list, get, create, update and delete;
- the in-memory administrator repository used by the request tests, `AdministradorServicoMock`;
- the database credential lookup `AdministradorServico.Login`.

Every operation is a pure function. A handler takes the service state and
the request. It returns a `Response` (`Ok`, `Created`, `NoContent`,
`NotFound`, `BadRequest` with the message list, `Unauthorized`). Handlers
that write also return the new state.

Modules:

- `Nullable`: `Option`, standing for C# `null`, and `string.IsNullOrEmpty`.
- `Text`: the decimal text of an integer, as `Int32.ToString()` writes it.
- `Sequences`: `List<T>.Find`, LINQ `Where` and `FirstOrDefault`, and replace-by-key. Also the lemmas relating them.
- `Entities`: records, DTOs (nullable fields as `Option`), the password-free view, and the login condition.
- `Validation`: the two validators and their exact messages.
- `Tokens`: the claim set of the JWT issued at login.
- `Http`: `Response`, `Location`, and `Handled` (a response plus the new state).
- `AdministratorRepository`: the mock's list. Its invariant is `DenseIds`: ids are exactly 1..n in list order.
- `AdministratorService`: the database `Login` query over the table's rows.
- `VehicleStore`: the vehicle table as rows plus the auto-increment counter. Its invariant is `Valid`: keys are positive, below the counter, and unique.
- `Endpoints`: the handlers, and lemmas that chain them (create then get, update then get, delete then get).

Field names are English: `email`/`Email`, `password`/`Senha`, `role`/`Perfil`, `name`/`Nome`, `brand`/`Marca`, `year`/`Ano`.

The administrator handlers run against the in-memory repository. The
lemma `AdministratorService.LoginAgreesWithRepository` shows the database
query returns the same record for the same rows, when both compare
strings ordinally (see `AdministratorService.Login` under "## Left out").

The create handlers return the `Location` the code writes. The
`...Corrected` variants differ only in that location; see "## Findings".

Three places where the code's behaviour is easy to misread:

- The mock's `Todos` ignores the page number.
- `PUT /veiculos/{id}` looks the key up before it validates, so an unknown key gives `NotFound` even when the body is invalid.
- The `?? TipoPerfil.Editor` fallback in the administrator create handler is never used, because `Nullable<T>.ToString()` never returns null: for a missing value it returns the empty string. Validation separately rejects a missing role, so the stored role is the member's name or, for a number outside the enum, that number's digits.

## Model

| member | source | states |
|---|---|---|
| Validation.ValidateAdministrator | API/Startup.cs:136-150 | The email, password and role messages appear exactly when the email is null or empty, the password is null or empty, and the role is null. They appear in that order, at most three, nothing else. The list is empty iff the DTO is acceptable. |
| Validation.ValidateVehicle | API/Startup.cs:231-245 | The name, brand and year messages appear exactly when the name is null or empty, the brand is null or empty, and the year is below 1900. They appear in that order, at most three. The list is empty iff the DTO is acceptable. |
| Validation.YearBoundary | API/Startup.cs:241-242 | Year 1900 is accepted and year 1899 is rejected, whatever the name and brand are. |
| Entities.RoleName | API/Startup.cs:214 | The stored role text is "Administrador" exactly for that role and "Editor" exactly for the other. A value outside the enum, which JSON binding accepts, is stored as its decimal digits. |
| Text.Digits | API/Startup.cs:214 | The decimal text of a natural number is non-empty, all digits, and has no leading zero. |
| Text.DigitsRoundTrip | API/Startup.cs:214 | Reading the decimal text back gives the number. |
| Text.IntText | API/Startup.cs:214 | The text of an integer starts with a minus sign exactly when it is negative, and otherwise with a digit. |
| Text.IntTextRoundTrip | API/Startup.cs:214 | After the optional minus sign, the text reads back as the number's magnitude. |
| Tokens.IssueToken | API/Startup.cs:113-134 | An empty signing key yields the empty token. Otherwise the token's Email, Perfil and role claims carry the administrator's email and role. |
| Sequences.Find | Test/Mocks/AdministradorServicoMock.cs:27-30 | The result is null iff no element matches. Otherwise it is the element at the first matching position. |
| Sequences.Where | Dominio/Servicos/AdministradorServico.cs:20-22 | Every kept element comes from the input and matches. Every matching input element is kept. It is never longer than the input. |
| Sequences.WhereSingleton | Dominio/Servicos/AdministradorServico.cs:20-22 | On a one-element sequence `Where` keeps the element exactly when it matches. |
| Sequences.WhereCons | Dominio/Servicos/AdministradorServico.cs:20-22 | `Where` of a non-empty sequence is the head, if it matches, followed by `Where` of the tail. |
| Sequences.WhereAppend | Dominio/Servicos/AdministradorServico.cs:20-22 | `Where` of a concatenation is the concatenation of the two `Where`s; with `WhereSingleton` this fixes order and multiplicity. |
| Sequences.FirstOrDefault | Dominio/Servicos/AdministradorServico.cs:23 | The result is null iff the sequence is empty. Otherwise it is the first element. |
| Sequences.WhereFirstIsFind | Dominio/Servicos/AdministradorServico.cs:20-23 | `Where(p).FirstOrDefault()` returns the same as `Find(p)` on every sequence. |
| AdministratorRepository.Seed | Test/Mocks/AdministradorServicoMock.cs:9-25 | The seed list has two administrators with ids 1 and 2 (dense), distinct emails, and roles Administrador and Editor. |
| AdministratorRepository.FindById | Test/Mocks/AdministradorServicoMock.cs:27-30 | The result is null iff no administrator has the id. Otherwise it is the first administrator with that id. |
| AdministratorRepository.FindByIdDense | Test/Mocks/AdministradorServicoMock.cs:27-35 | With ids 1..n, looking up id k returns the k-th administrator when 1 <= k <= n and null otherwise. |
| AdministratorRepository.Include | Test/Mocks/AdministradorServicoMock.cs:32-38 | The returned record gets id count+1 and otherwise keeps its fields. It is the record appended, the list grows by one, and existing entries are unchanged. |
| Sequences.FindAppend | Test/Mocks/AdministradorServicoMock.cs:27-38 | After appending one element, `Find` returns the earlier first match if there was one, else the new element if it matches, else null. |
| AdministratorRepository.IncludeKeepsDense | Test/Mocks/AdministradorServicoMock.cs:27-38 | With ids 1..n beforehand, ids become 1..n+1 and a lookup of the returned record's id finds that record. |
| AdministratorRepository.Login | Test/Mocks/AdministradorServicoMock.cs:40-46 | A returned record has exactly the given email and password. The result is null iff no administrator matches both. Otherwise it is the first match. |
| AdministratorRepository.All | Test/Mocks/AdministradorServicoMock.cs:48-51 | The whole list, unchanged, whatever page is asked for. |
| AdministratorService.Login | Dominio/Servicos/AdministradorServico.cs:18-24 | A read-only query: it returns no new table. A returned record has exactly the given email and password. The result is null iff no row matches both. Otherwise it is the first matching row in order. |
| AdministratorService.LoginAgreesWithRepository | Dominio/Servicos/AdministradorServico.cs:20-23 | The database query and the in-memory list return the same administrator for the same rows. |
| VehicleStore.FindById | API/Startup.cs:286-287 | The result is null iff no row has the key. Otherwise it is a stored row with that key. |
| VehicleStore.Add | API/Startup.cs:253-260 | Exactly one row is appended, stamped with the counter's key. Earlier rows are unchanged and the counter advances. |
| VehicleStore.AddKeepsValid | API/Startup.cs:260 | An insert keeps a valid table valid: the new key is fresh and below the advanced counter. |
| VehicleStore.AddFindsRecord | API/Startup.cs:253-262 | On a valid table, a lookup of the new key finds the new row. |
| VehicleStore.AddKeepsOthers | API/Startup.cs:260 | After an insert, every other key looks up as before. |
| VehicleStore.Update | API/Startup.cs:293-297 | Length, counter and every row's key are unchanged. Rows with a different key are untouched. |
| VehicleStore.UpdateKeepsValid | API/Startup.cs:297 | An update keeps a valid table valid. |
| VehicleStore.UpdateFindsRecord | API/Startup.cs:293-297 | After an update of a present key, the key looks up to the new record. An absent key stays absent. |
| VehicleStore.UpdateKeepsOthers | API/Startup.cs:297 | After an update, every other key looks up as before. |
| VehicleStore.Remove | API/Startup.cs:310 | No row with the deleted key remains, every remaining row was stored before, and the counter is unchanged. |
| VehicleStore.RemoveExact | API/Startup.cs:307-310 | On a valid table, deleting the key at position i leaves exactly the other rows in their order. |
| VehicleStore.RemoveAbsent | API/Startup.cs:310 | Deleting a key that no row has leaves the table unchanged. |
| VehicleStore.RemoveKeepsValid | API/Startup.cs:310 | A delete keeps a valid table valid. |
| VehicleStore.RemoveKeepsOthers | API/Startup.cs:310 | After a delete, every other key looks up as before. |
| Endpoints.Login | API/Startup.cs:152-170 | The result is Unauthorized iff no administrator matches both credentials. Otherwise it is Ok with the first match's email, role and token, and the email equals the submitted one. |
| Endpoints.ListAdministrators | API/Startup.cs:172-185 | The result is Ok with one password-free view per administrator, in list order, for any page argument. |
| Endpoints.GetAdministrator | API/Startup.cs:190-199 | The result is NotFound iff no administrator has the id. Otherwise it is Ok with the view of the first administrator with that id. |
| Endpoints.CreateAdministrator | API/Startup.cs:204-224 | An invalid DTO gives BadRequest with the validator's messages and the list unchanged. A valid one appends exactly one administrator (id count+1, email, password and role name from the DTO) and gives Created with its view at "/administrador/" and its id. |
| Endpoints.CreateAdministratorCorrected | API/Startup.cs:204-224 | Same store and response as `CreateAdministrator`, except that a Created location uses the GET route's prefix "/administradores/". |
| Endpoints.CreateAdministratorLocationDangles | API/Startup.cs:190-219 | A successful administrator create returns a location that no get-by-id route serves. |
| Endpoints.CreateVehicle | API/Startup.cs:247-263 | An invalid DTO gives BadRequest with the validator's messages and the table unchanged. A valid one appends exactly one vehicle (the counter's key, fields from the DTO) and gives Created with it at "/veiculo/" and its key. |
| Endpoints.CreateVehicleCorrected | API/Startup.cs:247-263 | Same store and response as `CreateVehicle`, except that a Created location uses the GET route's prefix "/veiculos/". |
| Endpoints.CreateVehicleLocationDangles | API/Startup.cs:262-274 | A successful vehicle create returns a location that no get-by-id route serves. |
| Endpoints.GetVehicle | API/Startup.cs:274-279 | The result is NotFound iff no row has the key. Otherwise it is Ok with a stored vehicle with that key. |
| Endpoints.UpdateVehicle | API/Startup.cs:284-300 | An absent key gives NotFound with the table unchanged, even for an invalid DTO. A present key with an invalid DTO gives BadRequest with the table unchanged. Otherwise name, brand and year are overwritten, the key is kept, and the updated vehicle is returned and stored. |
| Endpoints.DeleteVehicle | API/Startup.cs:305-313 | An absent key gives NotFound with the table unchanged. A present key gives NoContent; no row with the key remains, and every remaining row was stored before. |
| Endpoints.CreateThenGetAdministrator | API/Startup.cs:190-224 | With ids 1..n, a successful corrected create keeps ids dense. A GET at the returned location yields the returned view. |
| Endpoints.CreateThenGetVehicle | API/Startup.cs:247-279 | On a valid table, a successful corrected create keeps it valid. A GET at the returned location yields the returned vehicle, and other keys are served as before. |
| Endpoints.UpdateThenGetVehicle | API/Startup.cs:274-300 | On a valid table, a successful PUT is reflected by the next GET of the key. A refused PUT changes nothing. Other keys are served as before, and the table stays valid. |
| Endpoints.DeleteThenGetVehicle | API/Startup.cs:274-313 | After a DELETE the key is NotFound, other keys are served as before, and the table stays valid. |
| Endpoints.DeleteRemovesExactlyOne | API/Startup.cs:305-313 | On a valid table, a DELETE of the key at position i removes exactly that row and keeps the others in order. |
| Endpoints.VehicleLifecycle | API/Startup.cs:247-313 | From an empty table: creating Fusca/VW/1980 gives key 1 at "/veiculo/1" and GET serves it. A PUT with year 1850 is refused with only the year message. DELETE gives NoContent and a later GET is NotFound. |
| Endpoints.UndefinedRoleStored | API/Startup.cs:204-219 | A DTO whose role is the undefined enum value 5 passes validation, the create succeeds, and the stored role is the text "5". |
| Endpoints.SeedLogin | Test/Requests/AdministradorRequestTest.cs:23-38 | The seeded adm@teste.com logs in with 123456 and gets email and role Administrador. Any other password is Unauthorized. |

## Left out

- JWT signing, serialisation and the one-day `DateTime.Now` expiry (API/Startup.cs:117-133): a token is modelled as its claim set. The key itself is a parameter. How the constructor reads it from configuration (API/Startup.cs:25) is not modelled.
- Authentication, the `RequireAuthorization` role filters, Swagger, and dependency-injection and EF Core registration (API/Startup.cs:32-103): the framework enforces or performs these.
- `GET /veiculos` (API/Startup.cs:268-272): it returns `VeiculoServico.Todos(pagina)`. That service and its pagination are not part of this model.
- `GET /` (API/Startup.cs:109): it returns a constant home document.
- `VeiculoServico` is not part of this model. The vehicle table is abstracted as rows plus an auto-increment counter. Lookup, insert, update and delete act by primary key.
- `Entities.Role` models the enum `TipoPerfil` (`MinimalAPI.Dominio.Enuns`) with the two members the code names, `Administrador` and `Editor`, plus `Undefined(n)` for any other integer. The model does not fix the members' numeric values, so a request that sends a number which is in fact a member's value is modelled as that number, not as the member.
- The mock's list is a static field shared by every instance. Here it is a value passed in and returned.
- `AdministradorServico.Login` queries rows in the order the database returns them. That order is unspecified without an `ORDER BY`. The model takes the table order as given.
- Ids are C# `int`; the model uses unbounded integers. The mock's `Count() + 1` and the auto-increment key never reach 2^31 here.
- AdministratorService.Login: the model compares email and password ordinally. The real query runs in MySQL, where `==` compares under the column's collation, which may ignore case and accents. Under such a collation the database would accept credentials the model rejects.
- Program.cs is an earlier draft with a hard-coded login. It is not part of this model.

## Findings

| source | as written | input that shows it | evidently intended | confidence | as-written member | corrected member |
|---|---|---|---|---|---|---|
| API/Startup.cs:219 | The `Created` Location of a new administrator is `/administrador/{id}`. | Any valid create: it returns `/administrador/3`, but only `/administradores/{id}` serves an administrator. | `/administradores/{id}`, the route at line 190. | medium, not executed | Endpoints.CreateAdministrator | Endpoints.CreateAdministratorCorrected |
| API/Startup.cs:262 | The `Created` Location of a new vehicle is `/veiculo/{id}`. | Any valid create: it returns `/veiculo/1`, but only `/veiculos/{id}` serves a vehicle. | `/veiculos/{id}`, the route at line 274. | medium, not executed | Endpoints.CreateVehicle | Endpoints.CreateVehicleCorrected |

`Endpoints.CreateAdministratorLocationDangles` and `Endpoints.CreateVehicleLocationDangles` show that the location each handler returns, as written, is served by no get-by-id route.
The corrected handlers change only that location. `Endpoints.CreateThenGetAdministrator` and `Endpoints.CreateThenGetVehicle` prove that a GET at the corrected location serves the created record.

=== FILE: administrator_repository.dfy ===
/** `AdministradorServicoMock`: the in-memory administrator list the
    request tests run against. The list is a value here; every operation
    that changes it returns the new list. */
module AdministratorRepository {
  import opened Nullable
  import opened Entities
  import opened Sequences

  /** Ids are exactly 1..n, in list order. */
  ghost predicate DenseIds(admins: seq<Administrator>) {
    forall i :: 0 <= i < |admins| ==> admins[i].id == i + 1
  }

  /** The two administrators the list starts with. */
  function Seed(): (admins: seq<Administrator>)
    ensures |admins| == 2 && DenseIds(admins)
    ensures admins[0].email != admins[1].email
    ensures admins[0].role == RoleName(Administrador) && admins[1].role == RoleName(Editor)
  {
    [ Administrator(1, "adm@teste.com", "123456", "Administrador"),
      Administrator(2, "editor@teste.com", "123456", "Editor") ]
  }

  function HasId(id: int): Administrator -> bool {
    (a: Administrator) => a.id == id
  }

  /** `BuscaPorId`: the first administrator with the id, or null. */
  function FindById(admins: seq<Administrator>, id: int): (r: Option<Administrator>)
    ensures r.None? <==> forall i :: 0 <= i < |admins| ==> admins[i].id != id
    ensures r.Some? ==> exists i :: IsFirstMatch(admins, HasId(id), i) && admins[i] == r.value
  {
    Find(admins, HasId(id))
  }

  /** With dense ids, the id is the 1-based position. */
  lemma FindByIdDense(admins: seq<Administrator>, id: int)
    requires DenseIds(admins)
    ensures FindById(admins, id) == (if 1 <= id <= |admins| then Some(admins[id - 1]) else None)
  {
  }

  /** The list after `Incluir`, and the record it returns. */
  datatype Included = Included(admins: seq<Administrator>, added: Administrator)

  /** `Incluir`: stamps the record with id count + 1 and appends it. */
  function Include(admins: seq<Administrator>, a: Administrator): (r: Included)
    ensures |r.admins| == |admins| + 1
    ensures r.admins[..|admins|] == admins && r.admins[|admins|] == r.added
    ensures r.added.id == |admins| + 1
    ensures r.added.email == a.email && r.added.password == a.password && r.added.role == a.role
  {
    var added := a.(id := |admins| + 1);
    Included(admins + [added], added)
  }

  /** With ids 1..n, an insert leaves ids 1..n+1 and the returned record
      is found under its new id. */
  lemma IncludeKeepsDense(admins: seq<Administrator>, a: Administrator)
    requires DenseIds(admins)
    ensures DenseIds(Include(admins, a).admins)
    ensures FindById(Include(admins, a).admins, Include(admins, a).added.id) == Some(Include(admins, a).added)
  {
    var r := Include(admins, a);
    FindAppend(admins, r.added, HasId(r.added.id));
  }

  /** `Login`: the first administrator whose email and password equal the DTO's. */
  function Login(admins: seq<Administrator>, dto: LoginDto): (r: Option<Administrator>)
    ensures r.Some? ==> dto.email == Some(r.value.email) && dto.password == Some(r.value.password)
    ensures r.None? <==> NoMatch(admins, CredentialsMatch(dto))
    ensures r.Some? ==> exists i :: IsFirstMatch(admins, CredentialsMatch(dto), i) && admins[i] == r.value
  {
    Find(admins, CredentialsMatch(dto))
  }

  /** `Todos`: the page number is ignored and the whole list returned. */
  function All(admins: seq<Administrator>, page: Option<int>): (r: seq<Administrator>)
    ensures r == admins
  {
    admins
  }
}

=== FILE: administrator_service.dfy ===
/** `AdministradorServico.Login`: the database query
    `Where(email and password equal).FirstOrDefault()`, over the table's
    rows taken in the order the database returns them. */
module AdministratorService {
  import opened Nullable
  import opened Entities
  import opened Sequences
  import AdministratorRepository

  function Login(rows: seq<Administrator>, dto: LoginDto): (r: Option<Administrator>)
    ensures r.Some? ==> dto.email == Some(r.value.email) && dto.password == Some(r.value.password)
    ensures r.None? <==> NoMatch(rows, CredentialsMatch(dto))
    ensures r.Some? ==> exists i :: IsFirstMatch(rows, CredentialsMatch(dto), i) && rows[i] == r.value
  {
    WhereFirstIsFind(rows, CredentialsMatch(dto));
    FirstOrDefault(Where(rows, CredentialsMatch(dto)))
  }

  /** The database query and the in-memory list agree on the same rows. */
  lemma LoginAgreesWithRepository(rows: seq<Administrator>, dto: LoginDto)
    ensures Login(rows, dto) == AdministratorRepository.Login(rows, dto)
  {
  }
}

=== FILE: endpoints.dfy ===
/** The route handlers of `Startup.Configure`. Each handler is a function
    of the service state and the request; those that write return the
    new state with the response. Authentication and role filters are
    enforced by the framework before a handler runs and are not part of
    this module. */
module Endpoints {
  import opened Nullable
  import opened Entities
  import opened Sequences
  import opened Validation
  import opened Tokens
  import opened Http
  import Admins = AdministratorRepository
  import Vehicles = VehicleStore

  /** `AdministradorLogado`. */
  datatype LoggedIn = LoggedIn(email: string, role: string, token: Token)

  /** Path prefixes of the two get-by-id routes. */
  const AdministratorByIdRoute := "/administradores/"
  const VehicleByIdRoute := "/veiculos/"

  /** A location some get-by-id route answers. */
  predicate RoutedById(loc: Location) {
    loc.prefix == AdministratorByIdRoute || loc.prefix == VehicleByIdRoute
  }

  /** Path prefixes of the `Created` locations, as written. */
  const AdministratorCreatedPrefix := "/administrador/"
  const VehicleCreatedPrefix := "/veiculo/"

  /** POST /administradores/login. */
  function Login(admins: seq<Administrator>, key: string, dto: LoginDto): (r: Response<LoggedIn>)
    ensures r.Ok? || r.Unauthorized?
    ensures r.Unauthorized? <==> NoMatch(admins, CredentialsMatch(dto))
    ensures r.Ok? ==> dto.email == Some(r.body.email)
    ensures r.Ok? ==> exists i :: IsFirstMatch(admins, CredentialsMatch(dto), i)
                                && r.body == LoggedIn(admins[i].email, admins[i].role, IssueToken(key, admins[i]))
  {
    match Admins.Login(admins, dto)
    case None => Unauthorized
    case Some(a) => Ok(LoggedIn(a.email, a.role, IssueToken(key, a)))
  }

  function Views(admins: seq<Administrator>): (vs: seq<AdministratorView>)
    ensures |vs| == |admins|
    ensures forall i :: 0 <= i < |admins| ==> vs[i] == ViewOf(admins[i])
  {
    seq(|admins|, i requires 0 <= i < |admins| => ViewOf(admins[i]))
  }

  /** GET /administradores: every administrator, in list order, without
      passwords, whatever page is asked for. */
  function ListAdministrators(admins: seq<Administrator>, page: Option<int>): (r: Response<seq<AdministratorView>>)
    ensures r.Ok? && |r.body| == |admins|
    ensures forall i :: 0 <= i < |admins| ==> r.body[i] == AdministratorView(admins[i].id, admins[i].email, admins[i].role)
  {
    Ok(Views(Admins.All(admins, page)))
  }

  /** GET /administradores/{id}. */
  function GetAdministrator(admins: seq<Administrator>, id: int): (r: Response<AdministratorView>)
    ensures r.Ok? || r.NotFound?
    ensures r.NotFound? <==> forall i :: 0 <= i < |admins| ==> admins[i].id != id
    ensures r.Ok? ==> r.body.id == id
    ensures r.Ok? ==> exists i :: IsFirstMatch(admins, Admins.HasId(id), i) && r.body == ViewOf(admins[i])
  {
    match Admins.FindById(admins, id)
    case None => NotFound
    case Some(a) => Ok(ViewOf(a))
  }

  /** POST /administradores. */
  function CreateAdministrator(admins: seq<Administrator>, dto: AdministratorDto): (h: Handled<seq<Administrator>, AdministratorView>)
    ensures ValidateAdministrator(dto) != [] ==> h == Handled(admins, BadRequest(ValidateAdministrator(dto)))
    ensures ValidateAdministrator(dto) == [] ==>
      && |h.store| == |admins| + 1
      && h.store[..|admins|] == admins
      && var a := h.store[|admins|];
         && a.id == |admins| + 1
         && dto.email == Some(a.email) && dto.password == Some(a.password)
         && dto.role.Some? && a.role == RoleName(dto.role.value)
         && h.response == Created(Location(AdministratorCreatedPrefix, a.id), ViewOf(a))
  {
    var errors := ValidateAdministrator(dto);
    if errors != [] then Handled(admins, BadRequest(errors))
    else
      var added := Admins.Include(admins, Administrator(0, dto.email.value, dto.password.value, RoleName(dto.role.value)));
      Handled(added.admins, Created(Location(AdministratorCreatedPrefix, added.added.id), ViewOf(added.added)))
  }

  /** POST /veiculos. */
  function CreateVehicle(st: Vehicles.Store, dto: VehicleDto): (h: Handled<Vehicles.Store, Vehicle>)
    ensures ValidateVehicle(dto) != [] ==> h == Handled(st, BadRequest(ValidateVehicle(dto)))
    ensures ValidateVehicle(dto) == [] ==>
      && |h.store.rows| == |st.rows| + 1
      && h.store.rows[..|st.rows|] == st.rows
      && var v := h.store.rows[|st.rows|];
         && v.id == st.nextId
         && dto.name == Some(v.name) && dto.brand == Some(v.brand) && v.year == dto.year
         && h.response == Created(Location(VehicleCreatedPrefix, v.id), v)
  {
    var errors := ValidateVehicle(dto);
    if errors != [] then Handled(st, BadRequest(errors))
    else
      var st' := Vehicles.Add(st, Vehicle(0, dto.name.value, dto.brand.value, dto.year));
      var v := st'.rows[|st.rows|];
      Handled(st', Created(Location(VehicleCreatedPrefix, v.id), v))
  }

  /** POST /administradores with its `Location` pointing at the GET route:
      the same store and body as `CreateAdministrator`, only the location differs. */
  function CreateAdministratorCorrected(admins: seq<Administrator>, dto: AdministratorDto): (h: Handled<seq<Administrator>, AdministratorView>)
    ensures h.store == CreateAdministrator(admins, dto).store
    ensures !CreateAdministrator(admins, dto).response.Created? ==> h.response == CreateAdministrator(admins, dto).response
    ensures CreateAdministrator(admins, dto).response.Created? ==>
      var written := CreateAdministrator(admins, dto).response;
      h.response == Created(Location(AdministratorByIdRoute, written.location.id), written.body)
  {
    var h := CreateAdministrator(admins, dto);
    if h.response.Created? then Handled(h.store, Created(Location(AdministratorByIdRoute, h.response.location.id), h.response.body))
    else h
  }

  /** POST /veiculos with its `Location` pointing at the GET route: the
      same store and body as `CreateVehicle`, only the location differs. */
  function CreateVehicleCorrected(st: Vehicles.Store, dto: VehicleDto): (h: Handled<Vehicles.Store, Vehicle>)
    ensures h.store == CreateVehicle(st, dto).store
    ensures !CreateVehicle(st, dto).response.Created? ==> h.response == CreateVehicle(st, dto).response
    ensures CreateVehicle(st, dto).response.Created? ==>
      var written := CreateVehicle(st, dto).response;
      h.response == Created(Location(VehicleByIdRoute, written.location.id), written.body)
  {
    var h := CreateVehicle(st, dto);
    if h.response.Created? then Handled(h.store, Created(Location(VehicleByIdRoute, h.response.location.id), h.response.body))
    else h
  }

  /** The location a successful POST /administradores returns is served by
      no get-by-id route. */
  lemma CreateAdministratorLocationDangles(admins: seq<Administrator>, dto: AdministratorDto)
    requires ValidateAdministrator(dto) == []
    ensures CreateAdministrator(admins, dto).response.Created?
    ensures !RoutedById(CreateAdministrator(admins, dto).response.location)
  {
  }

  /** The location a successful POST /veiculos returns is served by no
      get-by-id route. */
  lemma CreateVehicleLocationDangles(st: Vehicles.Store, dto: VehicleDto)
    requires ValidateVehicle(dto) == []
    ensures CreateVehicle(st, dto).response.Created?
    ensures !RoutedById(CreateVehicle(st, dto).response.location)
  {
  }

  /** GET /veiculos/{id}. */
  function GetVehicle(st: Vehicles.Store, id: int): (r: Response<Vehicle>)
    ensures r.Ok? || r.NotFound?
    ensures r.NotFound? <==> forall i :: 0 <= i < |st.rows| ==> st.rows[i].id != id
    ensures r.Ok? ==> r.body in st.rows && r.body.id == id
  {
    match Vehicles.FindById(st, id)
    case None => NotFound
    case Some(v) => Ok(v)
  }

  /** PUT /veiculos/{id}: the key is looked up before the DTO is validated. */
  function UpdateVehicle(st: Vehicles.Store, id: int, dto: VehicleDto): (h: Handled<Vehicles.Store, Vehicle>)
    ensures (forall i :: 0 <= i < |st.rows| ==> st.rows[i].id != id) ==> h == Handled(st, NotFound)
    ensures (exists i :: 0 <= i < |st.rows| && st.rows[i].id == id) && ValidateVehicle(dto) != [] ==>
      h == Handled(st, BadRequest(ValidateVehicle(dto)))
    ensures (exists i :: 0 <= i < |st.rows| && st.rows[i].id == id) && ValidateVehicle(dto) == [] ==>
      && h.response.Ok?
      && h.response.body.id == id
      && dto.name == Some(h.response.body.name) && dto.brand == Some(h.response.body.brand)
      && h.response.body.year == dto.year
      && h.store == Vehicles.Update(st, h.response.body)
  {
    match Vehicles.FindById(st, id)
    case None => Handled(st, NotFound)
    case Some(prior) =>
      var errors := ValidateVehicle(dto);
      if errors != [] then Handled(st, BadRequest(errors))
      else
        var updated := prior.(name := dto.name.value, brand := dto.brand.value, year := dto.year);
        Handled(Vehicles.Update(st, updated), Ok(updated))
  }

  /** DELETE /veiculos/{id}. */
  function DeleteVehicle(st: Vehicles.Store, id: int): (h: Handled<Vehicles.Store, ()>)
    ensures (forall i :: 0 <= i < |st.rows| ==> st.rows[i].id != id) ==> h == Handled(st, NotFound)
    ensures (exists i :: 0 <= i < |st.rows| && st.rows[i].id == id) ==>
      && h.response == NoContent
      && (forall i :: 0 <= i < |h.store.rows| ==> h.store.rows[i].id != id)
      && (forall i :: 0 <= i < |h.store.rows| ==> h.store.rows[i] in st.rows)
  {
    match Vehicles.FindById(st, id)
    case None => Handled(st, NotFound)
    case Some(v) => Handled(Vehicles.Remove(st, v), NoContent)
  }

  /** A created administrator is served at its location, and the list
      keeps ids 1..n. */
  lemma CreateThenGetAdministrator(admins: seq<Administrator>, dto: AdministratorDto)
    requires Admins.DenseIds(admins)
    requires ValidateAdministrator(dto) == []
    ensures var h := CreateAdministratorCorrected(admins, dto);
      && Admins.DenseIds(h.store)
      && h.response.Created?
      && RoutedById(h.response.location)
      && GetAdministrator(h.store, h.response.location.id) == Ok(h.response.body)
  {
  }

  /** A created vehicle is served at its location; other keys are served
      as before; the table stays valid. */
  lemma CreateThenGetVehicle(st: Vehicles.Store, dto: VehicleDto, other: int)
    requires Vehicles.Valid(st)
    requires ValidateVehicle(dto) == []
    ensures var h := CreateVehicleCorrected(st, dto);
      && Vehicles.Valid(h.store)
      && h.response.Created?
      && RoutedById(h.response.location)
      && GetVehicle(h.store, h.response.location.id) == Ok(h.response.body)
      && (other != h.response.location.id ==> GetVehicle(h.store, other) == GetVehicle(st, other))
  {
    var v := Vehicle(0, dto.name.value, dto.brand.value, dto.year);
    Vehicles.AddKeepsValid(st, v);
    Vehicles.AddFindsRecord(st, v);
    if other != st.nextId {
      Vehicles.AddKeepsOthers(st, v, other);
    }
  }

  /** After a successful PUT the key serves the updated record; other keys
      are served as before; a rejected PUT changes nothing. */
  lemma UpdateThenGetVehicle(st: Vehicles.Store, id: int, dto: VehicleDto, other: int)
    requires Vehicles.Valid(st)
    ensures var h := UpdateVehicle(st, id, dto);
      && Vehicles.Valid(h.store)
      && (h.response.Ok? ==> GetVehicle(h.store, id) == h.response)
      && (!h.response.Ok? ==> h.store == st)
      && (other != id ==> GetVehicle(h.store, other) == GetVehicle(st, other))
  {
    match Vehicles.FindById(st, id)
    case None =>
    case Some(prior) =>
      if ValidateVehicle(dto) == [] {
        var updated := prior.(name := dto.name.value, brand := dto.brand.value, year := dto.year);
        assert UpdateVehicle(st, id, dto) == Handled(Vehicles.Update(st, updated), Ok(updated));
        Vehicles.UpdateKeepsValid(st, updated);
        Vehicles.UpdateFindsRecord(st, updated);
        if other != id {
          Vehicles.UpdateKeepsOthers(st, updated, other);
        }
      }
  }

  /** After a DELETE the key is not served; other keys are served as
      before; the table stays valid. */
  lemma DeleteThenGetVehicle(st: Vehicles.Store, id: int, other: int)
    requires Vehicles.Valid(st)
    ensures var h := DeleteVehicle(st, id);
      && Vehicles.Valid(h.store)
      && GetVehicle(h.store, id) == NotFound
      && (other != id ==> GetVehicle(h.store, other) == GetVehicle(st, other))
  {
    match Vehicles.FindById(st, id)
    case None =>
    case Some(v) =>
      Vehicles.RemoveKeepsValid(st, v);
      if other != id {
        Vehicles.RemoveKeepsOthers(st, v, other);
      }
  }

  /** A DELETE of a present key removes exactly that row and keeps the
      order of the rest. */
  lemma DeleteRemovesExactlyOne(st: Vehicles.Store, id: int, i: int)
    requires Vehicles.Valid(st)
    requires 0 <= i < |st.rows| && st.rows[i].id == id
    ensures DeleteVehicle(st, id).store.rows == st.rows[..i] + st.rows[i + 1..]
  {
    var v := Vehicles.FindById(st, id).value;
    Vehicles.RemoveExact(st, v, i);
  }

  /** A vehicle's life from an empty table: created with key 1, served,
      refused an update to 1850, deleted, then no longer served. */
  lemma VehicleLifecycle()
    ensures var fusca := VehicleDto(Some("Fusca"), Some("VW"), 1980);
      var created := CreateVehicle(Vehicles.Empty, fusca);
      var stored := Vehicle(1, "Fusca", "VW", 1980);
      var rejected := UpdateVehicle(created.store, 1, fusca.(year := 1850));
      var deleted := DeleteVehicle(created.store, 1);
      && created.response == Created(Location(VehicleCreatedPrefix, 1), stored)
      && GetVehicle(created.store, 1) == Ok(stored)
      && rejected == Handled(created.store, BadRequest([YearTooOld]))
      && deleted.response == NoContent
      && GetVehicle(deleted.store, 1) == NotFound
  {
    var fusca := VehicleDto(Some("Fusca"), Some("VW"), 1980);
    assert VehicleDtoAcceptable(fusca);
    var created := CreateVehicle(Vehicles.Empty, fusca);
    CreateThenGetVehicle(Vehicles.Empty, fusca, 1);
    assert created.store.rows[0].id == 1;
    assert ValidateVehicle(fusca.(year := 1850)) == [YearTooOld];
    DeleteThenGetVehicle(created.store, 1, 1);
  }

  /** A role value that names no `TipoPerfil` member passes validation and
      is stored as its decimal text. */
  lemma UndefinedRoleStored(admins: seq<Administrator>)
    ensures var dto := AdministratorDto(Some("a"), Some("b"), Some(Undefined(5)));
      var h := CreateAdministrator(admins, dto);
      && ValidateAdministrator(dto) == []
      && h.response.Created?
      && h.store[|admins|].role == "5"
  {
  }

  /** The seeded administrator logs in with its own password and is
      refused with any other. */
  lemma SeedLogin(key: string, wrong: string)
    requires wrong != "123456"
    ensures var r := Login(Admins.Seed(), key, LoginDto(Some("adm@teste.com"), Some("123456")));
      r.Ok? && r.body.email == "adm@teste.com" && r.body.role == "Administrador"
    ensures Login(Admins.Seed(), key, LoginDto(Some("adm@teste.com"), Some(wrong))).Unauthorized?
  {
  }
}

=== FILE: entities.dfy ===
/** The persisted records, the request DTOs and the response views. */
module Entities {
  import opened Nullable
  import Text

  /** `Administrador`: the role is kept as the text of a `TipoPerfil`. */
  datatype Administrator = Administrator(id: int, email: string, password: string, role: string)

  /** `Veiculo`. */
  datatype Vehicle = Vehicle(id: int, name: string, brand: string, year: int)

  /** `TipoPerfil`. A request body may carry any integer for an enum, so
      `Undefined(n)` stands for a value that names no member. */
  datatype Role = Administrador | Editor | Undefined(n: int)

  /** `TipoPerfil.ToString()`: a member's name, or the decimal text of a
      value that names no member. */
  function RoleName(r: Role): (name: string)
    ensures name == "Administrador" <==> r == Administrador
    ensures name == "Editor" <==> r == Editor
    ensures r.Undefined? ==> name == Text.IntText(r.n)
  {
    match r
    case Administrador => "Administrador"
    case Editor => "Editor"
    case Undefined(n) => Text.IntText(n)
  }

  /** `AdministradorDTO`: every field may arrive null. */
  datatype AdministratorDto = AdministratorDto(email: Option<string>, password: Option<string>, role: Option<Role>)

  /** `VeiculoDTO`: the strings may arrive null, the year is a plain int. */
  datatype VehicleDto = VehicleDto(name: Option<string>, brand: Option<string>, year: int)

  /** `LoginDTO`. */
  datatype LoginDto = LoginDto(email: Option<string>, password: Option<string>)

  /** `AdministradorModelView`: an administrator without the password. */
  datatype AdministratorView = AdministratorView(id: int, email: string, role: string)

  function ViewOf(a: Administrator): (v: AdministratorView)
    ensures v.id == a.id && v.email == a.email && v.role == a.role
  {
    AdministratorView(a.id, a.email, a.role)
  }

  /** The login query's condition: email and password both equal the
      DTO's, by ordinal string equality (a null field matches nothing). */
  function CredentialsMatch(dto: LoginDto): Administrator -> bool {
    (a: Administrator) => dto.email == Some(a.email) && dto.password == Some(a.password)
  }
}

=== FILE: http.dfy ===
/** The `Results.*` values the handlers return, and the `Location` header
    of a `Created` response. */
module Http {

  /** The path `prefix` followed by the decimal digits of `id`. */
  datatype Location = Location(prefix: string, id: int)

  datatype Response<T> =
    | Ok(body: T)
    | Created(location: Location, body: T)
    | NoContent
    | NotFound
    | BadRequest(errors: seq<string>)
    | Unauthorized

  /** A handler's response together with the store it leaves behind. */
  datatype Handled<S, T> = Handled(store: S, response: Response<T>)
}

=== FILE: nullable.dfy ===
/** C# reference and nullable values. `None` stands for `null` (or the
    `default` of `FirstOrDefault`), `Some(v)` for a present value. */
module Nullable {

  datatype Option<T> = None | Some(value: T)

  /** `string.IsNullOrEmpty`. */
  predicate IsNullOrEmpty(s: Option<string>) {
    s.None? || s.value == ""
  }
}

=== FILE: sequences.dfy ===
/** The collection queries the services are built from: `List<T>.Find`,
    LINQ `Where` / `FirstOrDefault`, and a replace-in-place by key. */
module Sequences {
  import opened Nullable

  /** `i` is the position of the first element of `s` satisfying `p`. */
  ghost predicate IsFirstMatch<T>(s: seq<T>, p: T -> bool, i: int) {
    0 <= i < |s| && p(s[i]) && forall j :: 0 <= j < i ==> !p(s[j])
  }

  /** No element of `s` satisfies `p`. */
  ghost predicate NoMatch<T>(s: seq<T>, p: T -> bool) {
    forall i :: 0 <= i < |s| ==> !p(s[i])
  }

  /** Position of the first element satisfying `p`, if any. */
  function FirstIndex<T>(s: seq<T>, p: T -> bool): (r: Option<nat>)
    ensures r.None? <==> NoMatch(s, p)
    ensures r.Some? ==> IsFirstMatch(s, p, r.value)
  {
    if |s| == 0 then None
    else if p(s[0]) then Some(0)
    else
      match FirstIndex(s[1..], p)
      case None => None
      case Some(k) => Some(k + 1)
  }

  /** `List<T>.Find`: the first element satisfying `p`, or null. */
  function Find<T>(s: seq<T>, p: T -> bool): (r: Option<T>)
    ensures r.None? <==> NoMatch(s, p)
    ensures r.Some? ==> exists i :: IsFirstMatch(s, p, i) && s[i] == r.value
  {
    match FirstIndex(s, p)
    case None => None
    case Some(i) => Some(s[i])
  }

  /** Whatever first match there is, `Find` returns it. */
  lemma FindIsFirstMatch<T>(s: seq<T>, p: T -> bool, i: int)
    requires IsFirstMatch(s, p, i)
    ensures Find(s, p) == Some(s[i])
  {
  }

  /** LINQ `Where`: the elements satisfying `p`, in order. */
  function Where<T>(s: seq<T>, p: T -> bool): (r: seq<T>)
    ensures |r| <= |s|
    ensures forall i :: 0 <= i < |r| ==> r[i] in s && p(r[i])
    ensures forall i {:trigger s[i] in r} :: 0 <= i < |s| && p(s[i]) ==> s[i] in r
  {
    if |s| == 0 then []
    else (if p(s[0]) then [s[0]] else []) + Where(s[1..], p)
  }

  /** LINQ `FirstOrDefault`: the head of the sequence, or null. */
  function FirstOrDefault<T>(s: seq<T>): (r: Option<T>)
    ensures r.None? <==> |s| == 0
    ensures r.Some? ==> r.value == s[0]
  {
    if |s| == 0 then None else Some(s[0])
  }

  /** `Where` on one element keeps it exactly when it matches. */
  lemma WhereSingleton<T>(x: T, p: T -> bool)
    ensures Where([x], p) == if p(x) then [x] else []
  {
  }

  /** `Where` on a non-empty sequence: the head if it matches, then the
      `Where` of the tail. */
  lemma WhereCons<T>(x: T, s: seq<T>, p: T -> bool)
    ensures Where([x] + s, p) == (if p(x) then [x] else []) + Where(s, p)
  {
  }

  /** `Where` distributes over concatenation: together with
      `WhereSingleton` this fixes the order and multiplicity of what it keeps. */
  lemma {:induction false} WhereAppend<T>(a: seq<T>, b: seq<T>, p: T -> bool)
    ensures Where(a + b, p) == Where(a, p) + Where(b, p)
  {
    if |a| == 0 {
      assert a + b == b;
    } else {
      assert (a + b)[1..] == a[1..] + b;
      WhereAppend(a[1..], b, p);
    }
  }


  /** Every element satisfying `q` is replaced by `v`; the rest stay. */
  function Replace<T>(s: seq<T>, q: T -> bool, v: T): (r: seq<T>)
    ensures |r| == |s|
    ensures forall i :: 0 <= i < |s| ==> r[i] == (if q(s[i]) then v else s[i])
  {
    if |s| == 0 then []
    else [if q(s[0]) then v else s[0]] + Replace(s[1..], q, v)
  }

  /** `Where(...).FirstOrDefault()` is the same query as `Find`. */
  lemma {:induction false} WhereFirstIsFind<T>(s: seq<T>, p: T -> bool)
    ensures FirstOrDefault(Where(s, p)) == Find(s, p)
  {
    if |s| > 0 && !p(s[0]) {
      WhereFirstIsFind(s[1..], p);
      assert Where(s, p) == Where(s[1..], p);
      match FirstIndex(s[1..], p)
      case None =>
      case Some(k) =>
        assert FirstIndex(s, p) == Some(k + 1);
        assert s[1..][k] == s[k + 1];
    }
  }

  /** `Where` keeping everything is the identity. */
  lemma {:induction false} WhereAll<T>(s: seq<T>, p: T -> bool)
    requires forall i :: 0 <= i < |s| ==> p(s[i])
    ensures Where(s, p) == s
  {
    if |s| > 0 {
      WhereAll(s[1..], p);
      assert s == [s[0]] + s[1..];
      WhereCons(s[0], s[1..], p);
    }
  }

  /** `Where` that rejects exactly one position removes exactly that element. */
  lemma {:induction false} WhereDropsOne<T>(s: seq<T>, p: T -> bool, i: int)
    requires 0 <= i < |s| && !p(s[i])
    requires forall j :: 0 <= j < |s| && j != i ==> p(s[j])
    ensures Where(s, p) == s[..i] + s[i + 1..]
  {
    assert s == [s[0]] + s[1..];
    WhereCons(s[0], s[1..], p);
    if i == 0 {
      WhereAll(s[1..], p);
    } else {
      WhereDropsOne(s[1..], p, i - 1);
      assert s[1..][..i - 1] == s[1..i];
      assert s[1..][i..] == s[i + 1..];
      assert [s[0]] + s[1..i] == s[..i];
    }
  }

  /** Filtering out elements `p` never holds for does not change `Find`. */
  lemma {:induction false} FindAfterWhere<T>(s: seq<T>, q: T -> bool, p: T -> bool)
    requires forall i :: 0 <= i < |s| && p(s[i]) ==> q(s[i])
    ensures Find(Where(s, q), p) == Find(s, p)
  {
    if |s| > 0 {
      var w := Where(s, q);
      var rest := Where(s[1..], q);
      FindAfterWhere(s[1..], q, p);
      if p(s[0]) {
        assert w == [s[0]] + rest;
        FindIsFirstMatch(s, p, 0);
        FindIsFirstMatch(w, p, 0);
      } else if q(s[0]) {
        assert w == [s[0]] + rest;
        assert w[1..] == rest;
        FindTail(s, p);
        FindTail(w, p);
      } else {
        assert w == rest;
        FindTail(s, p);
      }
    }
  }

  /** When the head does not match, `Find` looks at the tail. */
  lemma FindTail<T>(s: seq<T>, p: T -> bool)
    requires |s| > 0 && !p(s[0])
    ensures Find(s, p) == Find(s[1..], p)
  {
  }

  /** Appending one element changes `Find` only when nothing matched before. */
  lemma FindAppend<T>(s: seq<T>, x: T, p: T -> bool)
    ensures Find(s + [x], p) == (if !NoMatch(s, p) then Find(s, p) else if p(x) then Some(x) else None)
  {
    var t := s + [x];
    match FirstIndex(s, p)
    case Some(k) =>
      assert IsFirstMatch(t, p, k);
      FindIsFirstMatch(t, p, k);
    case None =>
      if p(x) {
        assert IsFirstMatch(t, p, |s|);
        FindIsFirstMatch(t, p, |s|);
      } else {
        assert NoMatch(t, p);
      }
  }
}

=== FILE: text.dfy ===
/** `Int32.ToString()`: the decimal text of an integer, with a leading
    minus sign when it is negative. */
module Text {

  predicate IsDigit(c: char) {
    '0' <= c <= '9'
  }

  function DigitChar(d: nat): (c: char)
    requires d < 10
    ensures IsDigit(c)
  {
    ('0' as int + d) as char
  }

  /** The decimal digits of `n`, most significant first, without leading zeros. */
  function Digits(n: nat): (s: string)
    ensures |s| >= 1 && forall i :: 0 <= i < |s| ==> IsDigit(s[i])
    ensures |s| > 1 ==> s[0] != '0'
  {
    if n < 10 then [DigitChar(n)] else Digits(n / 10) + [DigitChar(n % 10)]
  }

  /** The number a string of decimal digits denotes. */
  function DigitsValue(s: string): nat
    requires forall i :: 0 <= i < |s| ==> IsDigit(s[i])
  {
    if |s| == 0 then 0
    else
      assert IsDigit(s[|s| - 1]);
      DigitsValue(s[..|s| - 1]) * 10 + (s[|s| - 1] as int - '0' as int)
  }

  /** Reading the digits back gives the number. */
  lemma {:induction false} DigitsRoundTrip(n: nat)
    ensures DigitsValue(Digits(n)) == n
  {
    if n >= 10 {
      DigitsRoundTrip(n / 10);
      var s := Digits(n);
      assert s[..|s| - 1] == Digits(n / 10);
    }
  }

  function IntText(n: int): (s: string)
    ensures |s| >= 1 && (s[0] == '-' || IsDigit(s[0]))
    ensures s[0] == '-' <==> n < 0
  {
    if n < 0 then "-" + Digits(-n) else Digits(n)
  }

  /** The text reads back as the number: its sign, then its digits. */
  lemma IntTextRoundTrip(n: int)
    ensures n < 0 ==> IntText(n)[1..] == Digits(-n) && DigitsValue(IntText(n)[1..]) == -n
    ensures n >= 0 ==> DigitsValue(IntText(n)) == n
  {
    if n < 0 {
      DigitsRoundTrip(-n);
    } else {
      DigitsRoundTrip(n);
    }
  }
}

=== FILE: tokens.dfy ===
/** `GerarTokenJwt`, reduced to the claims the token carries. Signing,
    the one-day expiry and serialisation are not modelled. */
module Tokens {
  import opened Nullable
  import opened Entities
  import Sequences

  const EmailClaim := "Email"
  const PerfilClaim := "Perfil"
  /** The value of `ClaimTypes.Role`. */
  const RoleClaim := "http://schemas.microsoft.com/ws/2008/06/identity/claims/role"

  datatype Claim = Claim(claimType: string, value: string)

  /** `NoToken` is the empty string returned when no signing key is configured. */
  datatype Token = NoToken | Signed(claims: seq<Claim>)

  function OfType(claimType: string): Claim -> bool {
    (c: Claim) => c.claimType == claimType
  }

  /** The value of the first claim of the given type, if any. */
  function ClaimValue(claims: seq<Claim>, claimType: string): Option<string> {
    match Sequences.Find(claims, OfType(claimType))
    case None => None
    case Some(c) => Some(c.value)
  }

  function IssueToken(key: string, a: Administrator): (t: Token)
    ensures t.NoToken? <==> key == ""
    ensures t.Signed? ==> ClaimValue(t.claims, EmailClaim) == Some(a.email)
    ensures t.Signed? ==> ClaimValue(t.claims, PerfilClaim) == Some(a.role)
    ensures t.Signed? ==> ClaimValue(t.claims, RoleClaim) == Some(a.role)
  {
    if key == "" then NoToken
    else
      var claims := [Claim(EmailClaim, a.email), Claim(PerfilClaim, a.role), Claim(RoleClaim, a.role)];
      Sequences.FindIsFirstMatch(claims, OfType(EmailClaim), 0);
      Sequences.FindIsFirstMatch(claims, OfType(PerfilClaim), 1);
      Sequences.FindIsFirstMatch(claims, OfType(RoleClaim), 2);
      Signed(claims)
  }
}

=== FILE: validation.dfy ===
/** `ValidaAdministradorDTO` and `ValidaVeiculoDTO`: the messages of an
    `ErrosDeValidacao`, in the order they are added. An empty list means
    the DTO may be stored. */
module Validation {
  import opened Nullable
  import opened Entities

  const EmailRequired := "O campo email não pode ser vazio"
  const PasswordRequired := "O campo senha não pode ser vazio"
  const RoleRequired := "O campo perfil não pode ser vazio"

  const NameRequired := "O nome não pode ser um campo vazio"
  const BrandRequired := "A marca não pode ser um campo vazio"
  const YearTooOld := "O ano de fabricação do veiculo é muito antigo, somente é aceito veiculos com anos de fabricação superiores a 1900"

  /** The oldest accepted year of manufacture. */
  const MinimumYear := 1900

  /** An administrator DTO that can be stored: email and password present
      and non-empty, and a role chosen. */
  predicate AdministratorDtoAcceptable(dto: AdministratorDto) {
    !IsNullOrEmpty(dto.email) && !IsNullOrEmpty(dto.password) && dto.role.Some?
  }

  /** A vehicle DTO that can be stored: name and brand present and
      non-empty, and a year no older than `MinimumYear`. */
  predicate VehicleDtoAcceptable(dto: VehicleDto) {
    !IsNullOrEmpty(dto.name) && !IsNullOrEmpty(dto.brand) && dto.year >= MinimumYear
  }

  /** Where each administrator message sits in the order checks are made. */
  function AdministratorRank(m: string): nat {
    if m == EmailRequired then 0 else if m == PasswordRequired then 1 else 2
  }

  /** Where each vehicle message sits in the order checks are made. */
  function VehicleRank(m: string): nat {
    if m == NameRequired then 0 else if m == BrandRequired then 1 else 2
  }

  function ValidateAdministrator(dto: AdministratorDto): (errors: seq<string>)
    ensures |errors| <= 3
    ensures EmailRequired in errors <==> IsNullOrEmpty(dto.email)
    ensures PasswordRequired in errors <==> IsNullOrEmpty(dto.password)
    ensures RoleRequired in errors <==> dto.role.None?
    ensures forall m :: m in errors ==> m == EmailRequired || m == PasswordRequired || m == RoleRequired
    ensures forall i, j :: 0 <= i < j < |errors| ==> AdministratorRank(errors[i]) < AdministratorRank(errors[j])
    ensures errors == [] <==> AdministratorDtoAcceptable(dto)
  {
    (if IsNullOrEmpty(dto.email) then [EmailRequired] else [])
    + (if IsNullOrEmpty(dto.password) then [PasswordRequired] else [])
    + (if dto.role.None? then [RoleRequired] else [])
  }

  function ValidateVehicle(dto: VehicleDto): (errors: seq<string>)
    ensures |errors| <= 3
    ensures NameRequired in errors <==> IsNullOrEmpty(dto.name)
    ensures BrandRequired in errors <==> IsNullOrEmpty(dto.brand)
    ensures YearTooOld in errors <==> dto.year < MinimumYear
    ensures forall m :: m in errors ==> m == NameRequired || m == BrandRequired || m == YearTooOld
    ensures forall i, j :: 0 <= i < j < |errors| ==> VehicleRank(errors[i]) < VehicleRank(errors[j])
    ensures errors == [] <==> VehicleDtoAcceptable(dto)
  {
    (if IsNullOrEmpty(dto.name) then [NameRequired] else [])
    + (if IsNullOrEmpty(dto.brand) then [BrandRequired] else [])
    + (if dto.year < MinimumYear then [YearTooOld] else [])
  }

  /** The year bound is inclusive: 1900 passes, 1899 fails, whatever the
      other fields hold. */
  lemma YearBoundary(name: Option<string>, brand: Option<string>)
    ensures YearTooOld !in ValidateVehicle(VehicleDto(name, brand, MinimumYear))
    ensures YearTooOld in ValidateVehicle(VehicleDto(name, brand, MinimumYear - 1))
  {
  }
}

=== FILE: vehicle_store.dfy ===
/** The vehicle table behind `IVeiculoServico`: the rows in table order
    and the next value of the auto-increment key. */
module VehicleStore {
  import opened Nullable
  import opened Entities
  import opened Sequences

  datatype Store = Store(rows: seq<Vehicle>, nextId: int)

  /** An empty table whose first key will be 1. */
  const Empty := Store([], 1)

  /** Keys are positive, below the counter, and unique. */
  ghost predicate Valid(st: Store) {
    && st.nextId >= 1
    && (forall i :: 0 <= i < |st.rows| ==> 1 <= st.rows[i].id < st.nextId)
    && (forall i, j :: 0 <= i < j < |st.rows| ==> st.rows[i].id != st.rows[j].id)
  }

  function HasId(id: int): Vehicle -> bool {
    (v: Vehicle) => v.id == id
  }

  function LacksId(id: int): Vehicle -> bool {
    (v: Vehicle) => v.id != id
  }

  /** `BuscaPorId`: the vehicle with the key, or null. */
  function FindById(st: Store, id: int): (r: Option<Vehicle>)
    ensures r.None? <==> forall i :: 0 <= i < |st.rows| ==> st.rows[i].id != id
    ensures r.Some? ==> r.value in st.rows && r.value.id == id
  {
    Find(st.rows, HasId(id))
  }

  /** `Incluir`: the database assigns the next key and appends the row. */
  function Add(st: Store, v: Vehicle): (r: Store)
    ensures |r.rows| == |st.rows| + 1 && r.rows[..|st.rows|] == st.rows
    ensures r.rows[|st.rows|] == v.(id := st.nextId)
    ensures r.nextId > st.nextId
  {
    Store(st.rows + [v.(id := st.nextId)], st.nextId + 1)
  }

  /** `Atualizar`: the row with the record's key is overwritten by it. */
  function Update(st: Store, v: Vehicle): (r: Store)
    ensures |r.rows| == |st.rows| && r.nextId == st.nextId
    ensures forall i :: 0 <= i < |st.rows| ==> r.rows[i].id == st.rows[i].id
    ensures forall i :: 0 <= i < |st.rows| && st.rows[i].id != v.id ==> r.rows[i] == st.rows[i]
  {
    Store(Replace(st.rows, HasId(v.id), v), st.nextId)
  }

  /** `Apagar`: the row with the record's key is deleted. */
  function Remove(st: Store, v: Vehicle): (r: Store)
    ensures |r.rows| <= |st.rows| && r.nextId == st.nextId
    ensures forall i :: 0 <= i < |r.rows| ==> r.rows[i].id != v.id && r.rows[i] in st.rows
  {
    Store(Where(st.rows, LacksId(v.id)), st.nextId)
  }

  /** An insert keeps a valid table valid. */
  lemma AddKeepsValid(st: Store, v: Vehicle)
    requires Valid(st)
    ensures Valid(Add(st, v))
  {
  }

  /** On a valid table the new key finds the new row. */
  lemma AddFindsRecord(st: Store, v: Vehicle)
    requires Valid(st)
    ensures FindById(Add(st, v), st.nextId) == Some(v.(id := st.nextId))
  {
    FindAppend(st.rows, v.(id := st.nextId), HasId(st.nextId));
  }

  /** Other keys look up as before an insert. */
  lemma AddKeepsOthers(st: Store, v: Vehicle, id: int)
    requires id != st.nextId
    ensures FindById(Add(st, v), id) == FindById(st, id)
  {
    FindAppend(st.rows, v.(id := st.nextId), HasId(id));
  }

  /** An update keeps every key, so the table stays valid. */
  lemma UpdateKeepsValid(st: Store, v: Vehicle)
    requires Valid(st)
    ensures Valid(Update(st, v))
  {
  }

  /** Updating a present key makes the lookup return the new record;
      updating an absent key leaves it absent. */
  lemma UpdateFindsRecord(st: Store, v: Vehicle)
    ensures FindById(Update(st, v), v.id) == (if FindById(st, v.id).Some? then Some(v) else None)
  {
  }

  /** Other keys look up as before an update. */
  lemma UpdateKeepsOthers(st: Store, v: Vehicle, id: int)
    requires id != v.id
    ensures FindById(Update(st, v), id) == FindById(st, id)
  {
  }

  /** Deleting the row at position `i` removes exactly that row. */
  lemma RemoveExact(st: Store, v: Vehicle, i: int)
    requires Valid(st)
    requires 0 <= i < |st.rows| && st.rows[i].id == v.id
    ensures Remove(st, v).rows == st.rows[..i] + st.rows[i + 1..]
  {
    WhereDropsOne(st.rows, LacksId(v.id), i);
  }

  /** Deleting a key that is not there changes nothing. */
  lemma RemoveAbsent(st: Store, v: Vehicle)
    requires forall i :: 0 <= i < |st.rows| ==> st.rows[i].id != v.id
    ensures Remove(st, v) == st
  {
    WhereAll(st.rows, LacksId(v.id));
  }

  /** Dropping one row of a valid table leaves a valid table. */
  lemma DropKeepsValid(st: Store, i: int)
    requires Valid(st) && 0 <= i < |st.rows|
    ensures Valid(Store(st.rows[..i] + st.rows[i + 1..], st.nextId))
  {
  }

  /** A delete keeps the table valid. */
  lemma RemoveKeepsValid(st: Store, v: Vehicle)
    requires Valid(st)
    ensures Valid(Remove(st, v))
  {
    match FirstIndex(st.rows, HasId(v.id))
    case Some(k) =>
      RemoveExact(st, v, k);
      DropKeepsValid(st, k);
    case None =>
      RemoveAbsent(st, v);
  }

  /** Other keys look up as before a delete. */
  lemma RemoveKeepsOthers(st: Store, v: Vehicle, id: int)
    requires id != v.id
    ensures FindById(Remove(st, v), id) == FindById(st, id)
  {
    FindAfterWhere(st.rows, LacksId(v.id), HasId(id));
  }
}
